=== FILE: README.md ===
# tree-sitter subtree values, in Dafny

This project models the subtree value layer of tree-sitter's incremental parser,
as declared in `lib/src/subtree.h`: the two representations of a syntax-tree
node and the `static inline` accessors that read them.

A `Subtree` is either

- an **inline leaf** (`Subtrees.InlineData`): six flags, an 8-bit symbol, a
  16-bit parse state, and packed geometry (8-bit padding bytes, padding columns
  and size bytes; 4-bit padding rows and lookahead bytes); or
- a **heap record** (`Subtrees.HeapData`): full `Length`s for padding and
  size, 32-bit lookahead bytes and error cost, a 16-bit symbol and parse
  state, eleven flags, and a payload union (`Subtrees.Payload`):
  `Internal` (child count, children, visible/named child counts, node count,
  dynamic precedence, repeat depth, production id, cached first leaf),
  `External` (serialized scanner state), `ErrorLeaf` (lookahead character) or
  `PlainLeaf`.

The C code distinguishes the two by the low bit of a pointer; here the
datatype constructor is the tag. `MutableSubtree` has the same two cases.

The child count and the children sit inside the `Internal` payload. A record
whose child count is non-zero therefore always carries the fields that the
accessors then read from the union. Every leaf payload has child count zero.
`Subtrees.Valid` is the representation invariant over a whole tree:

- an inline leaf is never an error;
- an `Internal` payload has a non-zero child count and exactly that many valid children;
- a heap leaf carries the payload its flags select. `External` goes with
  `has_external_tokens`. Otherwise `ErrorLeaf` goes with the error symbol.
  Otherwise the payload is `PlainLeaf`.

Every accessor of the header is a function in module `Accessors`, under its
C name without the `ts_subtree_` prefix. Examples are `Accessors.Symbol`,
`Accessors.NodeCount` and `Accessors.ErrorCost`. Apart from the width bounds
on `Symbol` and `LookaheadBytes`, accessors that only read a field carry no
contract of their own. Their rules are stated by the lemma rows
below that cite the same source lines:

- `SharedFieldsDispatch` covers `Visible`, `Named`, `Extra`, `HasChanges`,
  `Missing`, `IsKeyword` and `ParseState`.
- `ReservedSymbolTests` covers `IsError` and `IsEof`.
- `LeafDefaults` and `InternalReadsStoredFields` cover `LeafSymbol`,
  `LeafParseState`, `NodeCount`, `VisibleChildCount`, `DynamicPrecedence` and
  `ProductionId`.
- `ErrorCostRule` and `MissingCostIgnoresStorage` cover `ErrorCost`.
- `InlineFlagsAreClear` (inline branches), `HeapFieldsDispatch` (heap
  branches), `IsFragileIff` and `IsRepetitionIff` cover `FragileLeft`,
  `FragileRight`, `HasExternalTokens`, `HasExternalScannerStateChange`,
  `DependsOnColumn`, `IsFragile` and `IsRepetition`. `HeapFieldsDispatch` also
  gives the heap branches of `Padding` and `Size`.

Constants from headers outside this model are parameters, not fixed values:

- the error and end symbols and the two error-cost constants form `Subtrees.Builtins`;
- `sizeof(Subtree)` and `sizeof(SubtreeHeapData)` form `Accessors.Layout`;
- the extent part of `length_add` is a caller-supplied function. Only the
  byte counts are known to add, as `uint32_t`.

Module `Summaries` states what the cached aggregates mean. Under the invariant
`FirstLeafCached`, `first_leaf` is copied from the first child; under
`NodeCountCached`, `node_count` is one plus the children's node counts. Under that invariant the O(1)
accessors agree with definitions that walk the tree.

Files: `ints.dfy` (fixed-width integers), `lengths.dfy` (`Length`,
`length_add`), `options.dfy`, `subtree.dfy` (data model and `Valid`),
`accessors.dfy`, `properties.dfy`, `summary.dfy`.

## Model

| member | source | states |
|---|---|---|
| `Accessors.TotalSize` | lib/src/subtree.h:279-281 | the total size's byte count is the total bytes, and its extent is the point addition of the padding extent and the size extent |
| `Lengths.LengthAdd` | lib/src/subtree.h:280 | byte counts of padding and size add exactly when the sum fits in 32 bits; the extent is whatever the point addition gives |
| `Accessors.Symbol` | lib/src/subtree.h:218 | an inline leaf's symbol is below 256, as its field (line 96) has 8 bits |
| `Accessors.LookaheadBytes` | lib/src/subtree.h:226 | an inline leaf's lookahead bytes are below 16, as its field (line 63) has 4 bits |
| `Accessors.AllocSize` | lib/src/subtree.h:230-234 | the allocation holds at least the record plus one `Subtree` slot per child |
| `Accessors.ChildCount` | lib/src/subtree.h:287-289 | a non-zero child count is reported only by heap records with an internal payload |
| `Accessors.Children` | lib/src/subtree.h:236-239 | the children pointer is NULL exactly for inline leaves |
| `Accessors.SetExtra` | lib/src/subtree.h:241-247 | afterwards `extra` is the given value and the representation is unchanged |
| `Accessors.FromMut` | lib/src/subtree.h:365-369 | the mutable handle's representation is kept |
| `Accessors.ToMutUnsafe` | lib/src/subtree.h:371-375 | the read-only handle's representation is kept |
| `Accessors.Padding` | lib/src/subtree.h:261-268 | an inline padding has bytes and columns below 256 and rows below 16 |
| `Accessors.Size` | lib/src/subtree.h:270-277 | an inline size lies on one line: row 0, column equal to its byte count, below 256 |
| `Accessors.TotalBytes` | lib/src/subtree.h:283-285 | for an inline leaf, total bytes are exactly padding bytes plus size bytes, with no wrap-around |
| `Accessors.RepeatDepth` | lib/src/subtree.h:291-293 | an inline leaf has repeat depth 0 |
| `SubtreeProperties.HeapFieldsDispatch` | lib/src/subtree.h:261-355 | on a heap record, padding, size, fragile-left, fragile-right, is-fragile, external tokens, scanner-state change and column dependence are read from the record's own fields |
| `SubtreeProperties.SharedFieldsDispatch` | lib/src/subtree.h:216-226 | each shared getter returns the same-named field of the inline data or of the heap record, whichever the subtree is |
| `SubtreeProperties.ReservedSymbolTests` | lib/src/subtree.h:357-363 | the error and end tests depend on the symbol alone, so equal symbols answer alike; with distinct reserved symbols no subtree is both |
| `SubtreeProperties.InlineHasNoChildren` | lib/src/subtree.h:287-293 | an inline leaf has child count 0, a NULL children array and repeat depth 0 |
| `SubtreeProperties.ChildrenMatchChildCount` | lib/src/subtree.h:236-239 | in a valid tree a heap record's children array has exactly child-count slots |
| `SubtreeProperties.InternalIffChildren` | lib/src/subtree.h:133-153 | in a valid tree the child count is non-zero iff the record is heap with the internal payload |
| `SubtreeProperties.LeafDefaults` | lib/src/subtree.h:249-331 | every leaf reports node count 1, dynamic precedence 0, production id 0, visible child count 0, and its own symbol and state as leaf symbol and state |
| `SubtreeProperties.InternalReadsStoredFields` | lib/src/subtree.h:249-331 | a node with children reports its stored node count, precedence, production id, visible child count, repeat depth and cached first leaf |
| `SubtreeProperties.RepeatDepthDefinedness` | lib/src/subtree.h:291-293 | in a valid tree the repeat depth is defined iff the subtree is inline or has children |
| `SubtreeProperties.ErrorCostRule` | lib/src/subtree.h:313-319 | a missing subtree costs the missing-tree plus recovery constants; otherwise inline costs 0 and heap its stored cost |
| `SubtreeProperties.MissingCostIgnoresStorage` | lib/src/subtree.h:313-319 | any two missing subtrees cost the same, whatever their representation or stored cost |
| `SubtreeProperties.InlineFlagsAreClear` | lib/src/subtree.h:333-351 | an inline leaf is not fragile on either side and has no external tokens, scanner-state change, column dependence or repetition |
| `SubtreeProperties.IsFragileIff` | lib/src/subtree.h:353-355 | fragile iff fragile on the left or on the right |
| `SubtreeProperties.IsRepetitionIff` | lib/src/subtree.h:295-299 | a repetition is a heap subtree with children that is neither named nor visible, and nothing else is |
| `SubtreeProperties.LeafPayloadMatchesFlags` | lib/src/subtree.h:148-153 | in a valid tree an inline leaf is never an error; a heap leaf holds scanner state iff it has external tokens, and otherwise holds a lookahead character iff it is an error |
| `SubtreeProperties.InlinePaddingRoundTrip` | lib/src/subtree.h:261-268 | storing a fitting padding into the three inline fields and reading it back gives it unchanged, and conversely |
| `SubtreeProperties.InlineSizeRoundTrip` | lib/src/subtree.h:270-277 | storing a fitting size into the inline byte field and reading it back gives it unchanged, and conversely |
| `SubtreeProperties.InlinePaddingRepresentable` | lib/src/subtree.h:60-65 | a padding is the padding of some inline leaf iff its bytes and columns are below 256 and its rows below 16 |
| `SubtreeProperties.InlineSizeRepresentable` | lib/src/subtree.h:270-277 | a size is the size of some inline leaf iff it is below 256 bytes on a single line |
| `SubtreeProperties.InlineWidths` | lib/src/subtree.h:93-99 | every inline accessor result fits the width of the field it reads |
| `SubtreeProperties.TotalBytesIsTotalSizeBytes` | lib/src/subtree.h:279-285 | the total size is `length_add` of padding and size, with extent the point sum of theirs; total bytes are its byte part for any extent arithmetic, and the exact sum when it fits |
| `SubtreeProperties.AllocSizeStep` | lib/src/subtree.h:232-234 | with no children the allocation is exactly the record, and one more child adds exactly one `Subtree` slot |
| `SubtreeProperties.MutRoundTrips` | lib/src/subtree.h:365-375 | converting to mutable and back, or back and forth, returns the same handle |
| `SubtreeProperties.SetExtraChangesOnlyExtra` | lib/src/subtree.h:241-247 | `extra` becomes the given value; writing the old value back restores the handle; every other accessor of the header, and validity, answer as before |
| `SubtreeProperties.SetExtraIdempotent` | lib/src/subtree.h:241-247 | setting the same flag twice equals setting it once |
| `Summaries.LeafValueIffNoChildren` | lib/src/subtree.h:249-259 | in a valid tree, a subtree stored as a leaf is exactly one whose child count is 0, the test the leaf accessors use |
| `Summaries.LeftmostLeaf` | lib/src/subtree.h:142-145 | descending through first children ends at a leaf, and a leaf is its own leftmost leaf |
| `Summaries.LeafSymbolIsLeftmostLeaf` | lib/src/subtree.h:249-259 | under the first-leaf cache invariant, leaf symbol and leaf parse state are those of the leftmost leaf found by walking the tree |
| `Summaries.NodeCountIsTreeSize` | lib/src/subtree.h:301-303 | under the node-count cache invariant, the node count is the number of nodes in the tree |
| `Summaries.NodeCountExceedsChildCount` | lib/src/subtree.h:301-303 | under the node-count cache invariant, the node count is at least the child count plus one |

## Left out

- The functions that `lib/src/subtree.h` only declares (lines 176-214) have their bodies in a source file that is not part of this model. This covers the external-scanner-state functions, array utilities, pool, constructors, `make_mut`, `retain`/`release`, `sizeof`, `compare`, `set_symbol`, `summarize`, `balance`, `edit` and `last_external_token`.
- Summaries.FirstLeafCached and Summaries.NodeCountCached: the aggregate invariants are hypotheses of the lemmas. The constructors that establish them are not part of this model. `NodeCountCached` also assumes that the 32-bit `node_count` never wraps: it requires the stored count to equal one plus the children's counts as an unbounded integer. So trees with 2^32 or more nodes fall outside `NodeCountIsTreeSize` and `NodeCountExceedsChildCount`. `LeafSymbolIsLeftmostLeaf` needs only `FirstLeafCached` and covers them.
- The reference count (line 112), and sharing of heap records between handles, are not modelled. For the same reason `SetExtra` on a heap record does not show the write through a shared pointer.
- The endianness and pointer-size layout variants, the `is_inline` and `unused` bits, and the pointer-bit aliasing (lines 44-101) are memory layout. The datatype constructor is the tag instead.
- The 24-byte in-place storage of `ExternalScannerState` versus a separate heap buffer (lines 31-37) is layout. Only the byte string is modelled.
- `ts_subtree_string` and `ts_subtree_print_dot_graph` (lines 210-211) are diagnostic output.
- `point_add`, the error-cost constants and the builtin symbol ids come from headers outside this model, and they are parameters here. Of `length_add`, only the byte part is fixed, as `uint32_t` addition modulo 2^32.
- `NULL_SUBTREE`, `TS_TREE_STATE_NONE` (lines 18-19), `SubtreePool` and the array typedefs (lines 168-174) are not used by the accessors.
- Accessors.RepeatDepth: returns `None` for a heap leaf. There the C code reads `repeat_depth` from a union member that is not the active one, so the value it gets is unspecified.
- Accessors.IsRepetition: returns `bool`. The C function returns the same truth value as a `uint32_t` 0 or 1.
- Accessors.AllocSize: the result is unbounded. A `size_t` wrap-around is possible only on 32-bit targets and is not modelled.
- `visible_child_count <= child_count` and `named_child_count <= visible_child_count` are not claimed. The header does not establish them.
- Subtrees.Valid: when a heap leaf has external tokens and also carries the error symbol, the model expects the external payload. The header's comments do not decide which payload applies in that case.

=== FILE: accessors.dfy ===
/**
  The `static inline` accessors of the subtree header. Each one dispatches on
  the representation: an inline leaf answers from its packed fields or with a
  fixed default, a heap record from its stored fields.
 */
module Accessors {
  import opened Ints
  import opened Lengths
  import opened Options
  import opened Subtrees

  // Fields present in both representations.

  function Symbol(s: Subtree): (r: SymbolId)
    ensures s.Inline? ==> r < 0x100
  {
    match s
    case Inline(d) => d.symbol
    case Heap(h) => h.symbol
  }

  function Visible(s: Subtree): bool
  {
    match s
    case Inline(d) => d.visible
    case Heap(h) => h.visible
  }

  function Named(s: Subtree): bool
  {
    match s
    case Inline(d) => d.named
    case Heap(h) => h.named
  }

  function Extra(s: Subtree): bool
  {
    match s
    case Inline(d) => d.extra
    case Heap(h) => h.extra
  }

  function HasChanges(s: Subtree): bool
  {
    match s
    case Inline(d) => d.hasChanges
    case Heap(h) => h.hasChanges
  }

  function Missing(s: Subtree): bool
  {
    match s
    case Inline(d) => d.isMissing
    case Heap(h) => h.isMissing
  }

  function IsKeyword(s: Subtree): bool
  {
    match s
    case Inline(d) => d.isKeyword
    case Heap(h) => h.isKeyword
  }

  function ParseState(s: Subtree): StateId
  {
    match s
    case Inline(d) => d.parseState
    case Heap(h) => h.parseState
  }

  function LookaheadBytes(s: Subtree): (r: U32)
    ensures s.Inline? ==> r < 0x10
  {
    match s
    case Inline(d) => d.lookaheadBytes
    case Heap(h) => h.lookaheadBytes
  }

  // Allocation and children.

  /** `sizeof(Subtree)` and `sizeof(SubtreeHeapData)`, which depend on the target. */
  datatype Layout = Layout(subtreeSize: nat, heapDataSize: nat)

  /**
    Bytes needed for a heap record with `childCount` children: the child slots
    are allocated immediately before the record, in the same block.
   */
  function AllocSize(childCount: U32, layout: Layout): (r: nat)
    ensures r >= layout.heapDataSize + childCount * layout.subtreeSize
  {
    childCount * layout.subtreeSize + layout.heapDataSize
  }

  /** The child count stored in a heap record; only internal records carry one. */
  function HeapChildCount(h: HeapData): (r: U32)
    ensures r > 0 ==> h.payload.Internal?
  {
    match h.payload
    case Internal(n, _, _, _, _, _, _, _, _) => n
    case _ => 0
  }

  function ChildCount(s: Subtree): (r: U32)
    ensures r > 0 ==> s.Heap? && s.ptr.payload.Internal?
  {
    match s
    case Inline(_) => 0
    case Heap(h) => HeapChildCount(h)
  }

  /**
    `ts_subtree_children`: NULL for an inline leaf; for a heap record, the
    slots in front of it, of which a leaf has none.
   */
  function Children(s: Subtree): (r: Option<seq<Subtree>>)
    ensures r.None? <==> s.Inline?
  {
    match s
    case Inline(_) => None
    case Heap(h) =>
      match h.payload
      case Internal(_, cs, _, _, _, _, _, _, _) => Some(cs)
      case _ => Some([])
  }

  // The mutable handle.

  function FromMut(m: MutableSubtree): (r: Subtree)
    ensures r.Inline? <==> m.MutInline?
  {
    match m
    case MutInline(d) => Inline(d)
    case MutHeap(h) => Heap(h)
  }

  function ToMutUnsafe(s: Subtree): (r: MutableSubtree)
    ensures r.MutInline? <==> s.Inline?
  {
    match s
    case Inline(d) => MutInline(d)
    case Heap(h) => MutHeap(h)
  }

  function SetExtra(m: MutableSubtree, isExtra: bool): (r: MutableSubtree)
    ensures r.MutInline? <==> m.MutInline?
    ensures Extra(FromMut(r)) == isExtra
  {
    match m
    case MutInline(d) => MutInline(d.(extra := isExtra))
    case MutHeap(h) => MutHeap(h.(extra := isExtra))
  }

  // The leftmost leaf.

  function LeafSymbol(s: Subtree): SymbolId
  {
    match s
    case Inline(d) => d.symbol
    case Heap(h) =>
      if HeapChildCount(h) == 0 then h.symbol else h.payload.firstLeaf.symbol
  }

  function LeafParseState(s: Subtree): StateId
  {
    match s
    case Inline(d) => d.parseState
    case Heap(h) =>
      if HeapChildCount(h) == 0 then h.parseState else h.payload.firstLeaf.parseState
  }

  // Geometry.

  /** Leading whitespace. An inline leaf packs it into 8 + 4 + 8 bits. */
  function Padding(s: Subtree): (r: Length)
    ensures s.Inline? ==> r.bytes < 0x100 && r.extent.row < 0x10 && r.extent.column < 0x100
  {
    match s
    case Inline(d) => Length(d.paddingBytes, Point(d.paddingRows, d.paddingColumns))
    case Heap(h) => h.padding
  }

  /** The token's own extent. An inline leaf always lies on one line. */
  function Size(s: Subtree): (r: Length)
    ensures s.Inline? ==> r.bytes < 0x100 && r.extent == Point(0, r.bytes)
  {
    match s
    case Inline(d) => Length(d.sizeBytes, Point(0, d.sizeBytes))
    case Heap(h) => h.size
  }

  /** Padding followed by size: the extent the subtree covers, leading whitespace included. */
  function TotalSize(s: Subtree, pointAdd: (Point, Point) -> Point): (r: Length)
    ensures r.bytes == TotalBytes(s)
    ensures r.extent == pointAdd(Padding(s).extent, Size(s).extent)
  {
    LengthAdd(Padding(s), Size(s), pointAdd)
  }

  /** Padding plus size, in bytes; no extent arithmetic is involved. */
  function TotalBytes(s: Subtree): (r: U32)
    ensures s.Inline? ==> r == s.data.paddingBytes + s.data.sizeBytes
  {
    ToU32(Padding(s).bytes + Size(s).bytes)
  }

  // Fields of internal nodes, with leaf defaults.

  /**
    The C code reads `repeat_depth` from every heap record, also from leaves
    whose payload union holds something else; that value is unspecified here.
   */
  function RepeatDepth(s: Subtree): (r: Option<U32>)
    ensures s.Inline? ==> r == Some(0)
  {
    match s
    case Inline(_) => Some(0)
    case Heap(h) =>
      match h.payload
      case Internal(_, _, _, _, _, _, depth, _, _) => Some(depth)
      case _ => None
  }

  function IsRepetition(s: Subtree): bool
  {
    match s
    case Inline(_) => false
    case Heap(h) => !h.named && !h.visible && HeapChildCount(h) != 0
  }

  function NodeCount(s: Subtree): U32
  {
    match s
    case Inline(_) => 1
    case Heap(h) => if HeapChildCount(h) == 0 then 1 else h.payload.nodeCount
  }

  function VisibleChildCount(s: Subtree): U32
  {
    if ChildCount(s) > 0 then s.ptr.payload.visibleChildCount else 0
  }

  /** A missing token costs a fixed amount, overriding whatever is stored. */
  function ErrorCost(s: Subtree, b: Builtins): U32
  {
    if Missing(s) then
      ToU32(b.errorCostPerMissingTree + b.errorCostPerRecovery)
    else
      match s
      case Inline(_) => 0
      case Heap(h) => h.errorCost
  }

  function DynamicPrecedence(s: Subtree): I32
  {
    match s
    case Inline(_) => 0
    case Heap(h) => if HeapChildCount(h) == 0 then 0 else h.payload.dynamicPrecedence
  }

  function ProductionId(s: Subtree): U16
  {
    if ChildCount(s) > 0 then s.ptr.payload.productionId else 0
  }

  // Flags only a heap record carries.

  function FragileLeft(s: Subtree): bool
  {
    match s
    case Inline(_) => false
    case Heap(h) => h.fragileLeft
  }

  function FragileRight(s: Subtree): bool
  {
    match s
    case Inline(_) => false
    case Heap(h) => h.fragileRight
  }

  function HasExternalTokens(s: Subtree): bool
  {
    match s
    case Inline(_) => false
    case Heap(h) => h.hasExternalTokens
  }

  function HasExternalScannerStateChange(s: Subtree): bool
  {
    match s
    case Inline(_) => false
    case Heap(h) => h.hasExternalScannerStateChange
  }

  function DependsOnColumn(s: Subtree): bool
  {
    match s
    case Inline(_) => false
    case Heap(h) => h.dependsOnColumn
  }

  function IsFragile(s: Subtree): bool
  {
    match s
    case Inline(_) => false
    case Heap(h) => h.fragileLeft || h.fragileRight
  }

  // Reserved symbols.

  function IsError(s: Subtree, b: Builtins): bool
  {
    Symbol(s) == b.errorSymbol
  }

  function IsEof(s: Subtree, b: Builtins): bool
  {
    Symbol(s) == b.endSymbol
  }
}

=== FILE: ints.dfy ===
/** Fixed-width integer types of the C source, as subset types of `int`. */
module Ints {

  /** A 4-bit unsigned bit-field (`uint8_t x : 4`). */
  type U4 = x: int | 0 <= x < 0x10

  /** `uint8_t` */
  type U8 = x: int | 0 <= x < 0x100

  /** `uint16_t` */
  type U16 = x: int | 0 <= x < 0x1_0000

  /** `uint32_t` */
  type U32 = x: int | 0 <= x < 0x1_0000_0000

  /** `int32_t` */
  type I32 = x: int | -0x8000_0000 <= x < 0x8000_0000

  /** Conversion of a non-negative value to `uint32_t`: C reduces it modulo 2^32. */
  function ToU32(x: nat): (r: U32)
    ensures x < 0x1_0000_0000 ==> r == x
    ensures (x - r) % 0x1_0000_0000 == 0
  {
    x % 0x1_0000_0000
  }
}

=== FILE: lengths.dfy ===
/**
  Source positions. `Length` and `TSPoint` are declared in headers outside this
  model (length.h, api.h); they are modelled as a byte count plus a row/column
  extent, each an unsigned 32-bit value.
 */
module Lengths {
  import opened Ints

  datatype Point = Point(row: U32, column: U32)

  datatype Length = Length(bytes: U32, extent: Point)

  /**
    `length_add`. Its body is not part of this model: the byte counts are
    known to add (as `uint32_t`, so modulo 2^32), and how two extents combine
    is left to the caller-supplied `pointAdd`.
   */
  function LengthAdd(a: Length, b: Length, pointAdd: (Point, Point) -> Point): (r: Length)
    ensures a.bytes + b.bytes < 0x1_0000_0000 ==> r.bytes == a.bytes + b.bytes
    ensures r.extent == pointAdd(a.extent, b.extent)
  {
    Length(ToU32(a.bytes + b.bytes), pointAdd(a.extent, b.extent))
  }
}

=== FILE: options.dfy ===
/** An optional value: `None` stands for the C source's NULL or for a value it leaves unspecified. */
module Options {
  datatype Option<+T> = None | Some(value: T)
}

=== FILE: properties.dfy ===
/**
  The dispatch rules of the accessors, stated over both representations, and
  the round trips of the inline geometry and of the mutable handle.
 */
module SubtreeProperties {
  import opened Ints
  import opened Lengths
  import opened Options
  import opened Subtrees
  import opened Accessors

  // Fields present in both representations.

  /** Each shared getter reads the same-named field of whichever representation it is given. */
  lemma SharedFieldsDispatch(s: Subtree)
    ensures s.Inline? ==>
      && Symbol(s) == s.data.symbol && Visible(s) == s.data.visible
      && Named(s) == s.data.named && Extra(s) == s.data.extra
      && HasChanges(s) == s.data.hasChanges && Missing(s) == s.data.isMissing
      && IsKeyword(s) == s.data.isKeyword && ParseState(s) == s.data.parseState
      && LookaheadBytes(s) == s.data.lookaheadBytes
    ensures s.Heap? ==>
      && Symbol(s) == s.ptr.symbol && Visible(s) == s.ptr.visible
      && Named(s) == s.ptr.named && Extra(s) == s.ptr.extra
      && HasChanges(s) == s.ptr.hasChanges && Missing(s) == s.ptr.isMissing
      && IsKeyword(s) == s.ptr.isKeyword && ParseState(s) == s.ptr.parseState
      && LookaheadBytes(s) == s.ptr.lookaheadBytes
  {
  }

  /**
    The heap branch of every accessor that reads a flag or length only a heap
    record stores in full: it returns the record's own field.
   */
  lemma HeapFieldsDispatch(s: Subtree)
    requires s.Heap?
    ensures Padding(s) == s.ptr.padding && Size(s) == s.ptr.size
    ensures FragileLeft(s) == s.ptr.fragileLeft && FragileRight(s) == s.ptr.fragileRight
    ensures IsFragile(s) == (s.ptr.fragileLeft || s.ptr.fragileRight)
    ensures HasExternalTokens(s) == s.ptr.hasExternalTokens
    ensures HasExternalScannerStateChange(s) == s.ptr.hasExternalScannerStateChange
    ensures DependsOnColumn(s) == s.ptr.dependsOnColumn
  {
  }

  /**
    The error and end-of-input tests look at the symbol alone: whatever the
    flags and representation, two subtrees with the same symbol answer alike,
    and with distinct reserved symbols no subtree is both.
   */
  lemma ReservedSymbolTests(s: Subtree, t: Subtree, b: Builtins)
    ensures IsError(s, b) <==> Symbol(s) == b.errorSymbol
    ensures IsEof(s, b) <==> Symbol(s) == b.endSymbol
    ensures Symbol(s) == Symbol(t) ==> IsError(s, b) == IsError(t, b) && IsEof(s, b) == IsEof(t, b)
    ensures b.errorSymbol != b.endSymbol ==> !(IsError(s, b) && IsEof(s, b))
  {
  }

  // Children and child counts.

  /** An inline leaf has no children array at all, no children and no repetition depth. */
  lemma InlineHasNoChildren(s: Subtree)
    requires s.Inline?
    ensures ChildCount(s) == 0
    ensures Children(s) == None
    ensures RepeatDepth(s) == Some(0)
  {
  }

  /** In a valid tree a heap record's children array has exactly `child_count` slots. */
  lemma ChildrenMatchChildCount(s: Subtree, b: Builtins)
    requires Valid(s, b)
    requires s.Heap?
    ensures Children(s).Some?
    ensures |Children(s).value| == ChildCount(s)
  {
  }

  /** In a valid tree the internal payload is present exactly when the child count is non-zero. */
  lemma InternalIffChildren(s: Subtree, b: Builtins)
    requires Valid(s, b)
    ensures ChildCount(s) > 0 <==> (s.Heap? && s.ptr.payload.Internal?)
  {
  }

  // Leaf defaults and stored fields.

  /** Every leaf, inline or heap, reports the defaults of a single node. */
  lemma LeafDefaults(s: Subtree)
    requires ChildCount(s) == 0
    ensures NodeCount(s) == 1
    ensures DynamicPrecedence(s) == 0
    ensures ProductionId(s) == 0
    ensures VisibleChildCount(s) == 0
    ensures LeafSymbol(s) == Symbol(s)
    ensures LeafParseState(s) == ParseState(s)
  {
  }

  /** An internal node reports its stored fields and its cached first leaf. */
  lemma InternalReadsStoredFields(s: Subtree)
    requires ChildCount(s) > 0
    ensures NodeCount(s) == s.ptr.payload.nodeCount
    ensures DynamicPrecedence(s) == s.ptr.payload.dynamicPrecedence
    ensures ProductionId(s) == s.ptr.payload.productionId
    ensures VisibleChildCount(s) == s.ptr.payload.visibleChildCount
    ensures RepeatDepth(s) == Some(s.ptr.payload.repeatDepth)
    ensures LeafSymbol(s) == s.ptr.payload.firstLeaf.symbol
    ensures LeafParseState(s) == s.ptr.payload.firstLeaf.parseState
  {
  }

  /**
    `repeat_depth` is well defined on inline leaves and internal nodes; on a
    valid heap leaf the C code reads a payload member that is not the active one.
   */
  lemma RepeatDepthDefinedness(s: Subtree, b: Builtins)
    requires Valid(s, b)
    ensures RepeatDepth(s).Some? <==> (s.Inline? || ChildCount(s) > 0)
  {
  }

  // Error cost.

  /**
    A missing subtree costs `ERROR_COST_PER_MISSING_TREE + ERROR_COST_PER_RECOVERY`
    whatever is stored; otherwise an inline leaf costs nothing and a heap
    record its stored cost.
   */
  lemma ErrorCostRule(s: Subtree, b: Builtins)
    ensures Missing(s) ==> ErrorCost(s, b) == ToU32(b.errorCostPerMissingTree + b.errorCostPerRecovery)
    ensures Missing(s) && b.errorCostPerMissingTree + b.errorCostPerRecovery < 0x1_0000_0000
      ==> ErrorCost(s, b) == b.errorCostPerMissingTree + b.errorCostPerRecovery
    ensures !Missing(s) && s.Inline? ==> ErrorCost(s, b) == 0
    ensures !Missing(s) && s.Heap? ==> ErrorCost(s, b) == s.ptr.errorCost
  {
  }

  /** Two missing subtrees cost the same, whatever their representation and stored cost. */
  lemma MissingCostIgnoresStorage(s: Subtree, t: Subtree, b: Builtins)
    requires Missing(s) && Missing(t)
    ensures ErrorCost(s, b) == ErrorCost(t, b)
  {
  }

  // Flags.

  /** An inline leaf is never fragile and never involves an external scanner or columns. */
  lemma InlineFlagsAreClear(s: Subtree)
    requires s.Inline?
    ensures !FragileLeft(s) && !FragileRight(s) && !IsFragile(s)
    ensures !HasExternalTokens(s)
    ensures !HasExternalScannerStateChange(s)
    ensures !DependsOnColumn(s)
    ensures !IsRepetition(s)
  {
  }

  lemma IsFragileIff(s: Subtree)
    ensures IsFragile(s) <==> FragileLeft(s) || FragileRight(s)
  {
  }

  /** A repetition node is a hidden, unnamed heap node with children. */
  lemma IsRepetitionIff(s: Subtree)
    ensures IsRepetition(s) <==> s.Heap? && ChildCount(s) != 0 && !Named(s) && !Visible(s)
  {
  }

  /**
    In a valid tree an inline leaf is never an error, and a heap leaf's payload
    is the one its flags select: external-scanner state exactly when it has
    external tokens, and otherwise the lookahead character exactly when its
    symbol is the error symbol.
   */
  lemma LeafPayloadMatchesFlags(s: Subtree, b: Builtins)
    requires Valid(s, b)
    ensures s.Inline? ==> !IsError(s, b)
    ensures s.Heap? && ChildCount(s) == 0 ==>
      (HasExternalTokens(s) <==> s.ptr.payload.External?)
    ensures s.Heap? && ChildCount(s) == 0 && !HasExternalTokens(s) ==>
      (IsError(s, b) <==> s.ptr.payload.ErrorLeaf?)
  {
  }

  // Inline geometry.

  /** A padding the inline fields can hold: 8-bit bytes and columns, 4-bit rows. */
  predicate FitsInlinePadding(l: Length)
  {
    l.bytes < 0x100 && l.extent.row < 0x10 && l.extent.column < 0x100
  }

  /** A size the inline fields can hold: under 256 bytes, all on one line. */
  predicate FitsInlineSize(l: Length)
  {
    l.bytes < 0x100 && l.extent == Point(0, l.bytes)
  }

  /** Stores a padding into the inline fields. */
  function WithPadding(d: InlineData, l: Length): InlineData
    requires FitsInlinePadding(l)
  {
    d.(paddingBytes := l.bytes, paddingRows := l.extent.row, paddingColumns := l.extent.column)
  }

  /** Stores a size into the inline fields. */
  function WithSize(d: InlineData, l: Length): InlineData
    requires FitsInlineSize(l)
  {
    d.(sizeBytes := l.bytes)
  }

  /** The padding is reassembled exactly from the three fields that store it. */
  lemma InlinePaddingRoundTrip(d: InlineData, l: Length)
    requires FitsInlinePadding(l)
    ensures Padding(Inline(WithPadding(d, l))) == l
    ensures WithPadding(d, Padding(Inline(d))) == d
  {
  }

  /** The size is reassembled exactly from the one field that stores it. */
  lemma InlineSizeRoundTrip(d: InlineData, l: Length)
    requires FitsInlineSize(l)
    ensures Size(Inline(WithSize(d, l))) == l
    ensures WithSize(d, Size(Inline(d))) == d
  {
  }

  /** Some inline leaf has padding `l` exactly when `l` fits the inline fields. */
  lemma InlinePaddingRepresentable(l: Length)
    ensures (exists d :: Padding(Inline(d)) == l) <==> FitsInlinePadding(l)
  {
    if FitsInlinePadding(l) {
      var d := WithPadding(AnyInlineData(), l);
      assert Padding(Inline(d)) == l;
    }
  }

  /** Some inline leaf has size `l` exactly when `l` is a single-line extent under 256 bytes. */
  lemma InlineSizeRepresentable(l: Length)
    ensures (exists d :: Size(Inline(d)) == l) <==> FitsInlineSize(l)
  {
    if FitsInlineSize(l) {
      var d := WithSize(AnyInlineData(), l);
      assert Size(Inline(d)) == l;
    }
  }

  function AnyInlineData(): InlineData
  {
    InlineData(false, false, false, false, false, false, 0, 0, 0, 0, 0, 0, 0)
  }

  /** Every accessor of an inline leaf stays within the width of the field it reads. */
  lemma InlineWidths(s: Subtree)
    requires s.Inline?
    ensures Symbol(s) < 0x100 && LeafSymbol(s) < 0x100
    ensures LookaheadBytes(s) < 0x10
    ensures Padding(s).bytes < 0x100 && Padding(s).extent.row < 0x10 && Padding(s).extent.column < 0x100
    ensures Size(s).bytes < 0x100 && Size(s).extent.row == 0 && Size(s).extent.column < 0x100
    ensures TotalBytes(s) < 0x200
  {
  }

  /**
    `total_bytes` is the byte part of `total_size`, whatever the extent
    arithmetic, and `total_size` is `length_add` of padding and size.
   */
  lemma TotalBytesIsTotalSizeBytes(s: Subtree, pointAdd: (Point, Point) -> Point)
    ensures TotalBytes(s) == TotalSize(s, pointAdd).bytes
    ensures TotalSize(s, pointAdd) == LengthAdd(Padding(s), Size(s), pointAdd)
    ensures TotalSize(s, pointAdd).extent == pointAdd(Padding(s).extent, Size(s).extent)
    ensures Padding(s).bytes + Size(s).bytes < 0x1_0000_0000 ==>
      TotalBytes(s) == Padding(s).bytes + Size(s).bytes
  {
  }

  // Allocation.

  /**
    A record without children needs just the record, and each further child
    adds one `Subtree` slot to the allocation.
   */
  lemma AllocSizeStep(n: U32, layout: Layout)
    requires n + 1 < 0x1_0000_0000
    ensures AllocSize(0, layout) == layout.heapDataSize
    ensures AllocSize(n + 1, layout) == AllocSize(n, layout) + layout.subtreeSize
  {
  }

  // The mutable handle.

  lemma MutRoundTrips(s: Subtree, m: MutableSubtree)
    ensures FromMut(ToMutUnsafe(s)) == s
    ensures ToMutUnsafe(FromMut(m)) == m
  {
  }

  /**
    `set_extra` changes the `extra` flag and nothing else: writing back the old
    flag restores the handle, and every other accessor answers as before.
   */
  lemma SetExtraChangesOnlyExtra(m: MutableSubtree, isExtra: bool, b: Builtins)
    ensures Extra(FromMut(SetExtra(m, isExtra))) == isExtra
    ensures SetExtra(SetExtra(m, isExtra), Extra(FromMut(m))) == m
    ensures var s, t := FromMut(m), FromMut(SetExtra(m, isExtra));
      && Symbol(t) == Symbol(s) && Visible(t) == Visible(s) && Named(t) == Named(s)
      && HasChanges(t) == HasChanges(s) && Missing(t) == Missing(s)
      && IsKeyword(t) == IsKeyword(s) && ParseState(t) == ParseState(s)
      && LookaheadBytes(t) == LookaheadBytes(s) && Padding(t) == Padding(s)
      && Size(t) == Size(s) && ChildCount(t) == ChildCount(s) && Children(t) == Children(s)
      && ErrorCost(t, b) == ErrorCost(s, b) && NodeCount(t) == NodeCount(s)
      && LeafSymbol(t) == LeafSymbol(s) && LeafParseState(t) == LeafParseState(s)
      && IsFragile(t) == IsFragile(s) && HasExternalTokens(t) == HasExternalTokens(s)
      && DynamicPrecedence(t) == DynamicPrecedence(s) && ProductionId(t) == ProductionId(s)
      && VisibleChildCount(t) == VisibleChildCount(s) && RepeatDepth(t) == RepeatDepth(s)
      && FragileLeft(t) == FragileLeft(s) && FragileRight(t) == FragileRight(s)
      && HasExternalScannerStateChange(t) == HasExternalScannerStateChange(s)
      && DependsOnColumn(t) == DependsOnColumn(s) && IsRepetition(t) == IsRepetition(s)
      && IsError(t, b) == IsError(s, b) && IsEof(t, b) == IsEof(s, b)
      && TotalBytes(t) == TotalBytes(s)
      && Valid(t, b) == Valid(s, b)
  {
  }

  /** Setting the same flag twice is the same as setting it once. */
  lemma SetExtraIdempotent(m: MutableSubtree, isExtra: bool)
    ensures SetExtra(SetExtra(m, isExtra), isExtra) == SetExtra(m, isExtra)
  {
  }
}

=== FILE: subtree.dfy ===
/**
  The subtree value: a tagged union of a small by-value leaf (`InlineData`) and
  a record that the C code keeps on the heap (`HeapData`). The C source tells
  the two apart by the low bit of the pointer; here the constructor is the tag.
 */
module Subtrees {
  import opened Ints
  import opened Lengths

  /** `TSSymbol` */
  type SymbolId = U16

  /** `TSStateId` */
  type StateId = U16

  /**
    The compact leaf. Field widths are those of the C bit-fields: the symbol
    has 8 bits, padding rows and lookahead bytes 4 bits each, and the three
    byte/column counts 8 bits each.
   */
  datatype InlineData = InlineData(
    visible: bool,
    named: bool,
    extra: bool,
    hasChanges: bool,
    isMissing: bool,
    isKeyword: bool,
    symbol: U8,
    parseState: StateId,
    paddingColumns: U8,
    paddingRows: U4,
    lookaheadBytes: U4,
    paddingBytes: U8,
    sizeBytes: U8)

  /** The symbol and parse state of the leftmost leaf, cached on internal nodes. */
  datatype FirstLeaf = FirstLeaf(symbol: SymbolId, parseState: StateId)

  /**
    Serialized external-scanner state. The C struct keeps up to 24 bytes in
    place and longer ones behind a pointer; only the byte string is modelled.
   */
  datatype ExternalScannerState = ExternalScannerState(bytes: seq<U8>)

  /**
    The payload union of a heap record. Which member is meaningful depends on
    the record's child count, external-token flag and symbol. The child count
    and the children themselves belong to `Internal`, so that a record whose
    child count is non-zero always carries the fields the accessors then read;
    every other payload is a leaf and has child count zero.
   */
  datatype Payload =
    | Internal(
        childCount: U32,
        children: seq<Subtree>,
        visibleChildCount: U32,
        namedChildCount: U32,
        nodeCount: U32,
        dynamicPrecedence: I32,
        repeatDepth: U16,
        productionId: U16,
        firstLeaf: FirstLeaf)
    | External(scannerState: ExternalScannerState)
    | ErrorLeaf(lookaheadChar: I32)
    | PlainLeaf

  /** The heap record, without its reference count. */
  datatype HeapData = HeapData(
    padding: Length,
    size: Length,
    lookaheadBytes: U32,
    errorCost: U32,
    symbol: SymbolId,
    parseState: StateId,
    visible: bool,
    named: bool,
    extra: bool,
    fragileLeft: bool,
    fragileRight: bool,
    hasChanges: bool,
    hasExternalTokens: bool,
    hasExternalScannerStateChange: bool,
    dependsOnColumn: bool,
    isMissing: bool,
    isKeyword: bool,
    payload: Payload)

  /** `Subtree`: the read-only handle. */
  datatype Subtree = Inline(data: InlineData) | Heap(ptr: HeapData)

  /** `MutableSubtree`: the same two representations, as a writable handle. */
  datatype MutableSubtree = MutInline(data: InlineData) | MutHeap(ptr: HeapData)

  /**
    Constants defined in headers outside this model: the reserved error and
    end-of-input symbols (`ts_builtin_sym_error`, `ts_builtin_sym_end`) and the
    two error-cost constants (`ERROR_COST_PER_MISSING_TREE`,
    `ERROR_COST_PER_RECOVERY`). They are left abstract.
   */
  datatype Builtins = Builtins(
    errorSymbol: SymbolId,
    endSymbol: SymbolId,
    errorCostPerMissingTree: nat,
    errorCostPerRecovery: nat)

  /** The kind of leaf payload a heap leaf must carry, given its flags. */
  datatype LeafKind = ExternalKind | ErrorKind | PlainKind

  /**
    A heap leaf holds external-scanner state when it has external tokens;
    otherwise the error payload when its symbol is the error symbol; otherwise
    nothing.
   */
  function ExpectedLeafKind(h: HeapData, b: Builtins): LeafKind
  {
    if h.hasExternalTokens then ExternalKind
    else if h.symbol == b.errorSymbol then ErrorKind
    else PlainKind
  }

  /**
    The representation invariant, for a whole tree: inline leaves are never
    errors; an internal payload has a non-zero child count and exactly that
    many children, each valid; a leaf payload is the one its flags select.
   */
  predicate Valid(s: Subtree, b: Builtins)
  {
    match s
    case Inline(d) => d.symbol != b.errorSymbol
    case Heap(h) =>
      match h.payload
      case Internal(n, cs, _, _, _, _, _, _, _) =>
        && n > 0
        && |cs| == n
        && forall i | 0 <= i < |cs| :: Valid(cs[i], b)
      case External(st) =>
        ExpectedLeafKind(h, b) == ExternalKind && |st.bytes| < 0x1_0000_0000
      case ErrorLeaf(_) => ExpectedLeafKind(h, b) == ErrorKind
      case PlainLeaf => ExpectedLeafKind(h, b) == PlainKind
  }
}

=== FILE: summary.dfy ===
/**
  What the cached aggregates of an internal node mean. When a node is built,
  its `node_count` is one plus the node counts of its children and its
  `first_leaf` is copied from the first child. Under that invariant the O(1)
  accessors agree with definitions that walk the whole tree.
 */
module Summaries {
  import opened Ints
  import opened Subtrees
  import opened Accessors

  /** Sum of `NodeCount` over a sequence of siblings. */
  function SumNodeCounts(cs: seq<Subtree>): nat
  {
    if cs == [] then 0 else NodeCount(cs[0]) + SumNodeCounts(cs[1..])
  }

  /**
    The first-leaf cache invariant, for a whole tree: every internal node has
    at least one child and caches the leaf symbol and leaf parse state of its
    first child.
   */
  predicate FirstLeafCached(s: Subtree)
  {
    match s
    case Inline(_) => true
    case Heap(h) =>
      match h.payload
      case Internal(_, cs, _, _, _, _, _, _, firstLeaf) =>
        && |cs| > 0
        && (forall i | 0 <= i < |cs| :: FirstLeafCached(cs[i]))
        && firstLeaf == FirstLeaf(LeafSymbol(cs[0]), LeafParseState(cs[0]))
      case _ => true
  }

  /**
    The node-count cache invariant, for a whole tree: every internal node
    stores one plus the sum of its children's node counts.
   */
  predicate NodeCountCached(s: Subtree)
  {
    match s
    case Inline(_) => true
    case Heap(h) =>
      match h.payload
      case Internal(_, cs, _, _, nodeCount, _, _, _, _) =>
        && (forall i | 0 <= i < |cs| :: NodeCountCached(cs[i]))
        && nodeCount == 1 + SumNodeCounts(cs)
      case _ => true
  }

  // Reference definitions that walk the tree.

  /** The number of nodes in the tree, counted by walking it. */
  function TreeSize(s: Subtree): nat
  {
    match s
    case Inline(_) => 1
    case Heap(h) =>
      match h.payload
      case Internal(_, cs, _, _, _, _, _, _, _) => 1 + SumTreeSizes(cs)
      case _ => 1
  }

  function SumTreeSizes(cs: seq<Subtree>): nat
  {
    if cs == [] then 0 else TreeSize(cs[0]) + SumTreeSizes(cs[1..])
  }

  /** Whether a subtree is stored as a leaf: inline, or a heap record without children. */
  predicate IsLeafValue(s: Subtree)
  {
    s.Inline? || !s.ptr.payload.Internal? || |s.ptr.payload.children| == 0
  }

  /** In a valid tree, stored as a leaf means reporting no children. */
  lemma LeafValueIffNoChildren(s: Subtree, b: Builtins)
    requires Valid(s, b)
    ensures IsLeafValue(s) <==> ChildCount(s) == 0
  {
  }

  /** The leftmost leaf, found by descending through first children. */
  function LeftmostLeaf(s: Subtree): (r: Subtree)
    ensures IsLeafValue(r)
    ensures IsLeafValue(s) ==> r == s
  {
    if IsLeafValue(s) then s else LeftmostLeaf(s.ptr.payload.children[0])
  }

  // The accessors agree with the reference definitions.

  /**
    `leaf_symbol` and `leaf_parse_state` answer, without descending, what the
    leftmost leaf's own symbol and parse state are.
   */
  lemma {:induction false} LeafSymbolIsLeftmostLeaf(s: Subtree, b: Builtins)
    requires Valid(s, b) && FirstLeafCached(s)
    ensures LeafSymbol(s) == Symbol(LeftmostLeaf(s))
    ensures LeafParseState(s) == ParseState(LeftmostLeaf(s))
  {
    if !IsLeafValue(s) {
      var c := s.ptr.payload.children[0];
      LeafSymbolIsLeftmostLeaf(c, b);
    }
  }

  /** `node_count` is the number of nodes in the tree. */
  lemma {:induction false} NodeCountIsTreeSize(s: Subtree, b: Builtins)
    requires Valid(s, b) && NodeCountCached(s)
    ensures NodeCount(s) == TreeSize(s)
  {
    if s.Heap? && s.ptr.payload.Internal? {
      var cs := s.ptr.payload.children;
      forall i | 0 <= i < |cs|
        ensures NodeCount(cs[i]) == TreeSize(cs[i])
      {
        NodeCountIsTreeSize(cs[i], b);
      }
      SumsAgree(cs);
    }
  }

  lemma {:induction false} SumsAgree(cs: seq<Subtree>)
    requires forall i | 0 <= i < |cs| :: NodeCount(cs[i]) == TreeSize(cs[i])
    ensures SumNodeCounts(cs) == SumTreeSizes(cs)
  {
    if cs != [] {
      SumsAgree(cs[1..]);
    }
  }

  /** A node counts itself and at least one node per child. */
  lemma {:induction false} NodeCountExceedsChildCount(s: Subtree, b: Builtins)
    requires Valid(s, b) && NodeCountCached(s)
    ensures NodeCount(s) >= ChildCount(s) + 1
  {
    if ChildCount(s) > 0 {
      var cs := s.ptr.payload.children;
      forall i | 0 <= i < |cs|
        ensures NodeCount(cs[i]) >= 1
      {
        NodeCountExceedsChildCount(cs[i], b);
      }
      SumAtLeastLength(cs);
    }
  }

  lemma {:induction false} SumAtLeastLength(cs: seq<Subtree>)
    requires forall i | 0 <= i < |cs| :: NodeCount(cs[i]) >= 1
    ensures SumNodeCounts(cs) >= |cs|
  {
    if cs != [] {
      SumAtLeastLength(cs[1..]);
    }
  }
}
